=== FILE: README.md ===
# User session controller — a Dafny model

This project models the decision logic of the user controller of a small media-sharing
backend: registration, login, logout, and refresh-token rotation, together with the token
helper they share. Each handler becomes a pure function. It takes the user collection and
the request and returns a `Step`: the collection afterwards plus either a success reply or
the `ApiError` (HTTP status and message) the handler throws.

Every user record has one nullable refresh-token slot. Login and refresh write a newly
signed token into it. Logout clears it. A refresh is accepted only when the presented
token verifies, names an existing user, and equals exactly what that user's slot holds.

Modules:

- `Js` (`js.dfy`): the JavaScript value semantics the handlers rely on.
  - `undefined` is `Option.None`.
  - A string is truthy when it is present and not empty.
  - `trim` removes the ECMAScript WhiteSpace and LineTerminator code points from both ends.
  - `toLowerCase` is modelled for ASCII letters.
- `UserModel` (`user_model.dfy`): the user collection.
  - It is a sequence, and a user's id is its position. Nothing in the controller deletes
    users, so ids are stable.
  - `findOne` with `$or: [{ username }, { email }]` is modelled as returning the first
    matching record in sequence order. This is a modelling choice, because the database
    does not promise which matching document it returns.
  - An `undefined` alternative is modelled as matching no record, because every stored
    record has string fields. This too is a modelling choice; see "## Left out".
  - The credential-free view corresponds to `select("-password -refreshToken")`.
- `UserController` (`user_controller.dfy`): the handlers and the token helper.
- `SessionLifecycle` (`session_lifecycle.dfy`): properties that relate several requests.
  - Rotation and reuse detection.
  - Logout revocation.
  - A single active session per user.
  - Preservation of the invariant that every stored token verifies to its holder.
  - What registration hands on to login.

The foreign calls are parameters:

- JWT verification is `verify: Token -> Verified`. It either rejects with the verifier's
  message or yields the decoded `_id`, which may be absent.
- Signing is `sign: UserId -> Option<TokenPair>`. `None` means that signing or saving the
  record threw.
- The password comparison is `passwordMatches(storedHash, supplied)`.
- The media upload results are `Option<Url>` fields of `Uploads`.

Behaviour of the code as written that the model keeps:

- The blank check rejects only fields that are present and trim to `""`. A field that is
  absent passes the check. The record cannot then be created, and the model reports 500:
  - For `username`, this is the visible `toLowerCase` call on `undefined`
    (src/controllers/user.controller.js:82).
  - For the other fields, the model assumes the user schema marks them required.
    `src/models/user.model.js` is not part of this model. The 500's message is a
    placeholder (`MsgCreateFailed`).
- The duplicate check and the login lookup compare the raw `username`, but the record
  stores it lower-cased. A user registered as `Alice` is therefore not found by `Alice`
  (`MixedCaseUsernameNotFound`). Registering `Alice` while `alice` is stored succeeds and
  leaves two records named `alice` (`MixedCaseDuplicateStored`). A query setter or a
  unique index in the schema could mask both, and the schema is not part of this model.
- The refresh handler destructures `newRefreshToken` from a helper that returns
  `refreshToken`. The collection is rotated, but the reply carries an `undefined` refresh
  token (`Refreshed(_, None)`).
- In the refresh handler, every error, including the helper's 500, is re-thrown as a 401
  that keeps the original message. An empty verifier message becomes
  "invalid refresh token".
- The register reply is sent with HTTP status 201.

## Model

| member | source | states |
|---|---|---|
| Js.Trim | src/controllers/user.controller.js:41 | the result is a contiguous slice of the input with only whitespace before and after it, neither of its ends is whitespace, and it is empty exactly when every character is whitespace |
| Js.BlankWhenTrimmedIsTrimCheck | src/controllers/user.controller.js:40-44 | a field counts as blank exactly when it is present and trims to ""; an absent field is never blank |
| Js.ToLowerCase | src/controllers/user.controller.js:82 | same length, each character lower-cased, no upper-case letter left |
| Js.ToLowerCaseIdempotent | src/controllers/user.controller.js:82 | lower-casing a stored username again changes nothing |
| Js.ToLowerCaseChangesUpper | src/controllers/user.controller.js:82 | a name containing an upper-case letter differs from its lower-cased form |
| UserModel.SanitizeIgnoresCredentials | src/controllers/user.controller.js:85-87 | the returned view does not depend on the password or the refresh token of the record |
| UserModel.FindOne | src/controllers/user.controller.js:46-48 | the first record matching username or email; none exactly when no record matches |
| UserModel.SetRefreshToken | src/controllers/user.controller.js:15-16 | only the refresh-token slot of that one user changes, and it holds the new value |
| UserController.GenerateTokens | src/controllers/user.controller.js:8-23 | succeeds iff the user exists and signing succeeds; on success returns the signed pair and stores its refresh token, overwriting the slot, with nothing else changed; otherwise 500 |
| UserController.Register | src/controllers/user.controller.js:36-96 | blank field → 400 even when a duplicate exists; duplicate raw username or email → 409; no avatar path → 400 "avatar file is required : locally", then a failed upload → 400 "avatar file is required: cloud", then an absent field → 500; success iff none of these and all fields present; success appends exactly one record with the lower-cased username, cover defaulting to "", no refresh token, and replies 201 with its credential-free view; failures leave the collection unchanged |
| UserController.Login | src/controllers/user.controller.js:108-152 | succeeds exactly when an identifier is given, a record matches, the password matches the first match and signing succeeds; no identifier → 400, then no match → 404, then wrong password → 401, then signing failure → 500, each leaving the collection unchanged; on success the first matching user's slot holds the new refresh token and the reply carries that token and the access token |
| UserController.Logout | src/controllers/user.controller.js:157-185 | always replies 200; clears the caller's refresh-token slot and changes nothing else |
| UserController.Rethrown | src/controllers/user.controller.js:233-235 | a caught error becomes a 401 keeping its message, or "invalid refresh token" when that is empty |
| UserController.Presented | src/controllers/user.controller.js:189 | the cookie when it is truthy, otherwise the body field; the result is truthy iff either is |
| UserController.Refresh | src/controllers/user.controller.js:188-237 | every failure is a 401 leaving the collection unchanged, with the message of the failing step; succeeds iff the presented token verifies to an existing user whose slot holds exactly that token and signing succeeds; on success only that slot changes, now holding the new token, and the reply's refresh token is undefined |
| SessionLifecycle.SlotUpdateKeepsVerify | src/controllers/user.controller.js:15-16 | changing one slot to a token that verifies to its holder, or clearing it, keeps every stored token verifying to its holder |
| SessionLifecycle.StaleTokenRejected | src/controllers/user.controller.js:209-213 | a token that verifies to an existing user but differs from its stored token is refused "expired or used", collection unchanged |
| SessionLifecycle.RetiredTokenRejected | src/controllers/user.controller.js:209-213 | a token no user holds is never accepted, whatever the verifier decodes from it |
| SessionLifecycle.CurrentTokenRefreshes | src/controllers/user.controller.js:196-225 | when stored tokens verify to their holders, the holder of the current token can refresh exactly when signing succeeds |
| SessionLifecycle.RefreshRotates | src/controllers/user.controller.js:209-220 | after a successful refresh with a fresh replacement, presenting the old token again is refused "expired or used" |
| SessionLifecycle.VerifiedTokensAreDistinct | src/controllers/user.controller.js:196-213 | when every stored token verifies to its holder, no two users hold the same token, so `RefreshRetiresToken` applies to every collection the handlers keep in that state |
| SessionLifecycle.RefreshRetiresToken | src/controllers/user.controller.js:209-220 | with distinct stored tokens, a successful refresh leaves the presented token held by nobody |
| SessionLifecycle.LogoutRevokes | src/controllers/user.controller.js:157-168 | after logout, every token that verifies to the caller is refused "expired or used" |
| SessionLifecycle.LogoutSparesOthers | src/controllers/user.controller.js:157-168 | logout does not change the outcome of any refresh whose token does not verify to the caller |
| SessionLifecycle.LoginThenRefresh | src/controllers/user.controller.js:131-148 | the refresh token a login returns is accepted by a later refresh exactly when signing succeeds |
| SessionLifecycle.LoginRevokesEarlierToken | src/controllers/user.controller.js:11-18 | after a login, any other token of that user is refused "expired or used": one live session per user |
| SessionLifecycle.RegisterKeepsTokensVerified | src/controllers/user.controller.js:76-83 | registration keeps every stored token verifying to its holder |
| SessionLifecycle.LoginKeepsTokensVerified | src/controllers/user.controller.js:131 | login keeps every stored token verifying to its holder when signer and verifier agree |
| SessionLifecycle.LogoutKeepsTokensVerified | src/controllers/user.controller.js:158-168 | logout keeps every stored token verifying to its holder |
| SessionLifecycle.RefreshKeepsTokensVerified | src/controllers/user.controller.js:220 | refresh keeps every stored token verifying to its holder when signer and verifier agree |
| SessionLifecycle.RegisteredUserFoundByEmail | src/controllers/user.controller.js:46-52 | after registration, a lookup by the registered email finds the new record |
| SessionLifecycle.CoverImageOptional | src/controllers/user.controller.js:59-79 | whether registration succeeds does not depend on the cover upload; a missing one is stored as "" |
| SessionLifecycle.MixedCaseUsernameNotStored | src/controllers/user.controller.js:46-83 | after registering a name with an upper-case letter, no record has that raw name |
| SessionLifecycle.MixedCaseDuplicateStored | src/controllers/user.controller.js:46-83 | registering a name whose lower-cased form is already stored succeeds and leaves two records with the same username, because the duplicate check compares the raw name |
| SessionLifecycle.MixedCaseDuplicateExample | src/controllers/user.controller.js:46-83 | with `alice` stored, registering `Alice` succeeds and both records are named `alice` |
| SessionLifecycle.MixedCaseUsernameNotFound | src/controllers/user.controller.js:115-122 | logging in by that same raw name alone is a 404 |

## Left out

- HTTP plumbing is not modelled: the request and response objects, cookie setting and clearing, the cookie options, and the `{status, data, message, success}` envelope. Only the status, the payload fields and the error message are modelled.
- JWT signing and verification, the bcrypt password comparison and the media upload are foreign calls. They are parameters, so expiry, secrets and hashing are not modelled.
- Database semantics are not modelled: `$set` to `undefined`, `select`, `validateBeforeSave`, and the failure of a read or write. A failed save while issuing tokens is folded into `sign` returning `None`.
- Logout is modelled as clearing the slot. This is a modelling choice: some Mongoose versions strip `undefined` keys from an update, and then the `$set` at src/controllers/user.controller.js:158-168 would leave the slot as it was. `SessionLifecycle.LogoutRevokes` and `SessionLifecycle.LogoutKeepsTokensVerified` rest on the model's choice.
- UserController.Register: the unique indexes on `username` and `email` in the user schema are not modelled. So the model accepts a registration whose lower-cased username is already stored, and it then holds two records with that username (`SessionLifecycle.MixedCaseDuplicateStored`). With such an index, the create at src/controllers/user.controller.js:76-83 would fail instead, and that write error is not modelled.
- The "something went wrong while registering user" 500 at src/controllers/user.controller.js:89-92 is not modelled, because reading back a record just appended to the collection cannot fail here.
- How the database answers a `$or` filter with an `undefined` alternative is not modelled. The model lets such an alternative match no record. Mongoose may instead drop the `undefined` condition, and a filter left empty would match any record. Under that reading, a registration with both `username` and `email` absent gets the 409 at src/controllers/user.controller.js:50-52 whenever the collection is non-empty. A login with only one identifier could also match through the other, absent one. `SessionLifecycle.MixedCaseUsernameNotFound` rests on the model's choice.
- Concurrent requests are not modelled. Each handler is one atomic step, so racing refreshes with last-writer-wins are not represented.
- A refresh request with no parsed body is not modelled. Reading `req.body.refreshToken` would then throw outside the handler's `try`; the model always has a body field, possibly `undefined`.
- Which record a lookup returns when several match is not modelled as the database does it. The model takes the first match in sequence order. When the username matches one record and the email another, login signs in whichever record the database returns, and that choice is outside the model.
- Request fields are modelled as strings or `undefined` only. A non-string JSON value behaves differently in the source. A number at src/controllers/user.controller.js:41 makes `field?.trim` throw, so the request never reaches the 400. An object such as `{"$ne": null}` in the login body at src/controllers/user.controller.js:115-117 acts as a query operator and can match any record.
- The authentication middleware that identifies the logout caller is not part of this model. Logout takes the caller's id as a parameter.
- Js.ToLowerCase: lower-cases ASCII letters only, because JavaScript's full Unicode case mapping is a large table that adds nothing to the session logic.
- Js.Trim: works on Unicode scalar values rather than UTF-16 code units. No whitespace character is a surrogate, so the result is the same.
- src/routes/video.routes.js holds route wiring only, and the video controller it imports is not part of this model.

=== FILE: js.dfy ===
/**
  The small slice of JavaScript value semantics the user controller relies on:
  `undefined` versus a present value, truthiness of strings,
  `String.prototype.trim` and `String.prototype.toLowerCase`.
 */
module Js {

  /** A request field, upload result or lookup result; `None` stands for `undefined`. */
  datatype Option<T> = None | Some(value: T) {

    /** The carried value, or `fallback` for `undefined`. */
    function ValueOr(fallback: T): T {
      if Some? then value else fallback
    }
  }

  /** A string-valued field is truthy when it is present and not the empty string. */
  predicate Truthy(v: Option<string>) {
    v.Some? && v.value != ""
  }

  /** The code points ECMAScript classes as WhiteSpace or LineTerminator, which `trim` removes. */
  predicate IsWhitespace(c: char) {
    var n := c as int;
    || n == 0x09 || n == 0x0A || n == 0x0B || n == 0x0C || n == 0x0D
    || n == 0x20 || n == 0xA0 || n == 0x1680
    || (0x2000 <= n <= 0x200A)
    || n == 0x2028 || n == 0x2029 || n == 0x202F || n == 0x205F
    || n == 0x3000 || n == 0xFEFF
  }

  predicate AllWhitespace(s: string) {
    forall i :: 0 <= i < |s| ==> IsWhitespace(s[i])
  }

  /** Drops the longest whitespace prefix. */
  function TrimStart(s: string): (r: string)
    ensures |r| <= |s| && r == s[|s| - |r|..]
    ensures forall i :: 0 <= i < |s| - |r| ==> IsWhitespace(s[i])
    ensures r == [] || !IsWhitespace(r[0])
  {
    if |s| > 0 && IsWhitespace(s[0]) then TrimStart(s[1..]) else s
  }

  /** Drops the longest whitespace suffix. */
  function TrimEnd(s: string): (r: string)
    ensures |r| <= |s| && r == s[..|r|]
    ensures forall i :: |r| <= i < |s| ==> IsWhitespace(s[i])
    ensures r == [] || !IsWhitespace(r[|r| - 1])
  {
    if |s| > 0 && IsWhitespace(s[|s| - 1]) then TrimEnd(s[..|s| - 1]) else s
  }

  /** `s.trim()`: neither end of the result is whitespace, and the result is empty
      exactly when every character of `s` is whitespace. */
  function Trim(s: string): (r: string)
    ensures |r| <= |s|
    ensures r == [] <==> AllWhitespace(s)
    ensures r == [] || (!IsWhitespace(r[0]) && !IsWhitespace(r[|r| - 1]))
    ensures exists a, b :: 0 <= a <= b <= |s| && r == s[a..b] && AllWhitespace(s[..a]) && AllWhitespace(s[b..])
  {
    TrimIsSlice(s);
    TrimEnd(TrimStart(s))
  }

  /** Trimming keeps one contiguous slice of `s`, with whitespace alone on either side. */
  lemma TrimIsSlice(s: string)
    ensures var r := TrimEnd(TrimStart(s));
            exists a, b :: 0 <= a <= b <= |s| && r == s[a..b] && AllWhitespace(s[..a]) && AllWhitespace(s[b..])
  {
    var t := TrimStart(s);
    SliceBetweenWhitespace(s, t, TrimEnd(t));
  }

  /** A prefix `r` of a suffix `t` of `s`, where everything cut off is whitespace. */
  lemma SliceBetweenWhitespace(s: string, t: string, r: string)
    requires |t| <= |s| && t == s[|s| - |t|..]
    requires forall i :: 0 <= i < |s| - |t| ==> IsWhitespace(s[i])
    requires |r| <= |t| && r == t[..|r|]
    requires forall i :: |r| <= i < |t| ==> IsWhitespace(t[i])
    ensures exists a, b :: 0 <= a <= b <= |s| && r == s[a..b] && AllWhitespace(s[..a]) && AllWhitespace(s[b..])
  {
    var a := |s| - |t|;
    var b := a + |r|;
    assert r == s[a..b];
    assert AllWhitespace(s[..a]);
    assert forall i :: 0 <= i < |s| - b ==> s[b..][i] == t[|r| + i];
    assert AllWhitespace(s[b..]);
  }

  /** The blank check `field?.trim() === ""`: true only for a PRESENT field made of
      whitespace alone (see `BlankWhenTrimmedIsTrimCheck`). */
  predicate BlankWhenTrimmed(v: Option<string>) {
    v.Some? && AllWhitespace(v.value)
  }

  /** `BlankWhenTrimmed` is exactly the comparison of the trimmed field with "";
      an `undefined` field is never blank. */
  lemma BlankWhenTrimmedIsTrimCheck(v: Option<string>)
    ensures BlankWhenTrimmed(v) <==> v.Some? && Trim(v.value) == ""
    ensures v.None? ==> !BlankWhenTrimmed(v)
  {
  }

  predicate IsUpper(c: char) {
    'A' <= c <= 'Z'
  }

  predicate IsLower(c: char) {
    'a' <= c <= 'z'
  }

  /** Lower-cases one ASCII letter and leaves every other character alone. */
  function LowerChar(c: char): (d: char)
    ensures !IsUpper(d)
    ensures !IsUpper(c) ==> d == c
    ensures IsUpper(c) ==> IsLower(d) && d as int - 'a' as int == c as int - 'A' as int
  {
    if IsUpper(c) then (c as int + 32) as char else c
  }

  /** `s.toLowerCase()`, restricted to the ASCII letters. */
  function ToLowerCase(s: string): (r: string)
    ensures |r| == |s|
    ensures forall i :: 0 <= i < |s| ==> r[i] == LowerChar(s[i])
    ensures forall i :: 0 <= i < |r| ==> !IsUpper(r[i])
  {
    if s == [] then [] else [LowerChar(s[0])] + ToLowerCase(s[1..])
  }

  /** Lower-casing twice is lower-casing once. */
  lemma ToLowerCaseIdempotent(s: string)
    ensures ToLowerCase(ToLowerCase(s)) == ToLowerCase(s)
  {
    var r := ToLowerCase(s);
    assert forall i :: 0 <= i < |r| ==> ToLowerCase(r)[i] == r[i];
  }

  /** A string that contains an upper-case letter is changed by lower-casing. */
  lemma ToLowerCaseChangesUpper(s: string, k: nat)
    requires k < |s| && IsUpper(s[k])
    ensures ToLowerCase(s) != s
  {
    assert !IsUpper(ToLowerCase(s)[k]);
  }
}

=== FILE: session_lifecycle.dfy ===
/**
  Properties of the refresh-token slot across requests: a refresh is accepted
  only for the token the user currently holds, every successful refresh, login
  or logout retires the previous token, and a request for one user never
  changes what another user can do. Also what registration hands on to login.
 */
module SessionLifecycle {
  import opened Js
  import opened UserModel
  import opened UserController

  // ------------------------------------------------------------ invariants

  /** The signer and the verifier agree: every refresh token the signer mints for
      user `id` is non-empty and verifies back to `id`. */
  ghost predicate SignerAgrees(sign: UserId -> Option<TokenPair>, verify: Token -> Verified) {
    forall id: UserId :: sign(id).Some? ==>
      sign(id).value.refreshToken != "" && verify(sign(id).value.refreshToken) == Decoded(Some(id))
  }

  /** Every stored refresh token is non-empty and verifies to the user holding it. */
  ghost predicate StoredTokensVerify(store: Store, verify: Token -> Verified) {
    forall id: UserId, t: Token :: HoldsToken(store, id, t) ==> t != "" && verify(t) == Decoded(Some(id))
  }

  /** No user holds `t`. */
  ghost predicate Retired(store: Store, t: Token) {
    forall id: UserId :: !HoldsToken(store, id, t)
  }

  /** No two users hold the same refresh token. */
  ghost predicate TokensDistinct(store: Store) {
    forall i: UserId, j: UserId, t: Token :: HoldsToken(store, i, t) && HoldsToken(store, j, t) ==> i == j
  }

  /** Tokens that verify to their holders are distinct: one token decodes to one id.
      So every collection the four handlers reach from an empty one, with a signer
      and a verifier that agree, meets the hypothesis of `RefreshRetiresToken`. */
  lemma VerifiedTokensAreDistinct(store: Store, verify: Token -> Verified)
    requires StoredTokensVerify(store, verify)
    ensures TokensDistinct(store)
  {
  }

  /** Changing one slot to a token that verifies to its holder, or clearing it,
      keeps `StoredTokensVerify`. */
  lemma SlotUpdateKeepsVerify(before: Store, after: Store, id: UserId, verify: Token -> Verified)
    requires StoredTokensVerify(before, verify)
    requires OnlyTokenChanged(before, after, id)
    requires after[id].refreshToken.Some? ==>
               after[id].refreshToken.value != "" && verify(after[id].refreshToken.value) == Decoded(Some(id))
    ensures StoredTokensVerify(after, verify)
  {
    forall j: UserId, t: Token | HoldsToken(after, j, t)
      ensures t != "" && verify(t) == Decoded(Some(j))
    {
      if j != id {
        assert HoldsToken(before, j, t);
      }
    }
  }

  // ------------------------------------------------------------ refresh

  /** A token that verifies to an existing user but is not the one that user holds
      is refused as expired or used, whatever its signature says. */
  lemma StaleTokenRejected(store: Store, cookie: Option<string>, body: Option<string>,
                           verify: Token -> Verified, sign: UserId -> Option<TokenPair>, t: Token, id: UserId)
    requires Presented(cookie, body) == Some(t) && t != ""
    requires verify(t) == Decoded(Some(id)) && id < |store|
    requires !HoldsToken(store, id, t)
    ensures Refresh(store, cookie, body, verify, sign) == Step(store, Failure(ApiError(401, MsgRefreshUsed)))
  {
  }

  /** A token nobody holds can never be refreshed, whatever the verifier decodes from it. */
  lemma RetiredTokenRejected(store: Store, cookie: Option<string>, body: Option<string>,
                             verify: Token -> Verified, sign: UserId -> Option<TokenPair>)
    requires Presented(cookie, body).Some? && Retired(store, Presented(cookie, body).value)
    ensures Refresh(store, cookie, body, verify, sign).reply.Failure?
    ensures Refresh(store, cookie, body, verify, sign).store == store
  {
  }

  /** The user holding its current token, when the signer and the verifier agree,
      can always refresh unless signing itself fails. */
  lemma CurrentTokenRefreshes(store: Store, verify: Token -> Verified, sign: UserId -> Option<TokenPair>,
                              id: UserId, t: Token)
    requires StoredTokensVerify(store, verify)
    requires HoldsToken(store, id, t)
    ensures Refresh(store, Some(t), None, verify, sign).reply.Success? <==> sign(id).Some?
  {
    assert t != "" && verify(t) == Decoded(Some(id));
    assert Admissible(store, Some(t), None, verify, t, id);
  }

  /** Rotation: once a refresh with `t` succeeds and the new token differs from
      `t`, presenting `t` again is refused as expired or used. */
  lemma RefreshRotates(store: Store, cookie: Option<string>, body: Option<string>,
                       verify: Token -> Verified, sign: UserId -> Option<TokenPair>,
                       cookie2: Option<string>, body2: Option<string>, sign2: UserId -> Option<TokenPair>)
    requires Refresh(store, cookie, body, verify, sign).reply.Success?
    requires Presented(cookie2, body2) == Presented(cookie, body)
    requires var t := Presented(cookie, body).value;
             sign(verify(t).subject.value).value.refreshToken != t
    ensures var after := Refresh(store, cookie, body, verify, sign).store;
            Refresh(after, cookie2, body2, verify, sign2) == Step(after, Failure(ApiError(401, MsgRefreshUsed)))
  {
    var after := Refresh(store, cookie, body, verify, sign).store;
    var t := Presented(cookie, body).value;
    var id := verify(t).subject.value;
    assert HoldsToken(after, id, sign(id).value.refreshToken);
    StaleTokenRejected(after, cookie2, body2, verify, sign2, t, id);
  }

  /** With distinct stored tokens and a fresh replacement, a successful refresh
      leaves the presented token held by nobody. */
  lemma RefreshRetiresToken(store: Store, cookie: Option<string>, body: Option<string>,
                            verify: Token -> Verified, sign: UserId -> Option<TokenPair>)
    requires TokensDistinct(store)
    requires Refresh(store, cookie, body, verify, sign).reply.Success?
    requires var t := Presented(cookie, body).value;
             sign(verify(t).subject.value).value.refreshToken != t
    ensures Retired(Refresh(store, cookie, body, verify, sign).store, Presented(cookie, body).value)
  {
    var after := Refresh(store, cookie, body, verify, sign).store;
    var t := Presented(cookie, body).value;
    var id := verify(t).subject.value;
    assert HoldsToken(store, id, t);
    assert after[id].refreshToken == Some(sign(id).value.refreshToken);
    forall j: UserId
      ensures !HoldsToken(after, j, t)
    {
      if j != id && j < |store| {
        assert after[j] == store[j];
        assert HoldsToken(store, j, t) ==> j == id;
      }
    }
  }

  // ------------------------------------------------------------ logout

  /** After logout, no token that verifies to the caller can be refreshed. */
  lemma LogoutRevokes(store: Store, caller: UserId, cookie: Option<string>, body: Option<string>,
                      verify: Token -> Verified, sign: UserId -> Option<TokenPair>)
    requires caller < |store|
    requires Truthy(Presented(cookie, body))
    requires verify(Presented(cookie, body).value) == Decoded(Some(caller))
    ensures var after := Logout(store, caller).store;
            Refresh(after, cookie, body, verify, sign) == Step(after, Failure(ApiError(401, MsgRefreshUsed)))
  {
    var after := Logout(store, caller).store;
    StaleTokenRejected(after, cookie, body, verify, sign, Presented(cookie, body).value, caller);
  }

  /** Logout does not change the outcome of any refresh whose token does not
      verify to the caller. */
  lemma LogoutSparesOthers(store: Store, caller: UserId, cookie: Option<string>, body: Option<string>,
                           verify: Token -> Verified, sign: UserId -> Option<TokenPair>)
    requires Truthy(Presented(cookie, body))
    requires verify(Presented(cookie, body).value) != Decoded(Some(caller))
    ensures Refresh(Logout(store, caller).store, cookie, body, verify, sign).reply
            == Refresh(store, cookie, body, verify, sign).reply
  {
    var after := Logout(store, caller).store;
    var t := Presented(cookie, body).value;
    if caller < |store| {
      match verify(t)
      case Rejected(_) =>
      case Decoded(subject) =>
        if subject.Some? && subject.value < |store| {
          var id := subject.value;
          assert id != caller;
          assert after[id] == store[id];
          if sign(id).Some? && HoldsToken(store, id, t) {
            assert GenerateTokens(after, id, sign).store[id] == GenerateTokens(store, id, sign).store[id];
          }
        }
    }
  }

  // ------------------------------------------------------------ login

  /** The refresh token a successful login returns is the one the user can now refresh with. */
  lemma LoginThenRefresh(store: Store, creds: Credentials, passwordMatches: (string, Option<string>) -> bool,
                         verify: Token -> Verified, sign: UserId -> Option<TokenPair>, sign2: UserId -> Option<TokenPair>)
    requires SignerAgrees(sign, verify)
    requires Login(store, creds, passwordMatches, sign).reply.Success?
    ensures var r := Login(store, creds, passwordMatches, sign);
            var id := FindOne(store, creds.username, creds.email).value;
            Refresh(r.store, Some(r.reply.payload.refreshToken), None, verify, sign2).reply.Success?
            <==> sign2(id).Some?
  {
    var r := Login(store, creds, passwordMatches, sign);
    var id := FindOne(store, creds.username, creds.email).value;
    var t := r.reply.payload.refreshToken;
    assert t == sign(id).value.refreshToken;
    assert Admissible(r.store, Some(t), None, verify, t, id);
  }

  /** Single session per user: after a successful login, any other token that
      verifies to the same user is refused as expired or used. */
  lemma LoginRevokesEarlierToken(store: Store, creds: Credentials, passwordMatches: (string, Option<string>) -> bool,
                                 sign: UserId -> Option<TokenPair>, cookie: Option<string>, body: Option<string>,
                                 verify: Token -> Verified, sign2: UserId -> Option<TokenPair>)
    requires Login(store, creds, passwordMatches, sign).reply.Success?
    requires var id := FindOne(store, creds.username, creds.email).value;
             && Truthy(Presented(cookie, body))
             && verify(Presented(cookie, body).value) == Decoded(Some(id))
             && Presented(cookie, body).value != sign(id).value.refreshToken
    ensures var after := Login(store, creds, passwordMatches, sign).store;
            Refresh(after, cookie, body, verify, sign2) == Step(after, Failure(ApiError(401, MsgRefreshUsed)))
  {
    var after := Login(store, creds, passwordMatches, sign).store;
    var id := FindOne(store, creds.username, creds.email).value;
    StaleTokenRejected(after, cookie, body, verify, sign2, Presented(cookie, body).value, id);
  }

  // ------------------------------------------------------------ invariant preservation

  lemma RegisterKeepsTokensVerified(store: Store, form: RegisterForm, files: Uploads, verify: Token -> Verified)
    requires StoredTokensVerify(store, verify)
    ensures StoredTokensVerify(Register(store, form, files).store, verify)
  {
    var r := Register(store, form, files);
    if r.reply.Success? {
      assert r.store[|store|].refreshToken.None?;
      forall j: UserId, t: Token | HoldsToken(r.store, j, t)
        ensures t != "" && verify(t) == Decoded(Some(j))
      {
        assert j < |store|;
        assert r.store[j] == store[j];
        assert HoldsToken(store, j, t);
      }
    }
  }

  lemma LoginKeepsTokensVerified(store: Store, creds: Credentials, passwordMatches: (string, Option<string>) -> bool,
                                 sign: UserId -> Option<TokenPair>, verify: Token -> Verified)
    requires StoredTokensVerify(store, verify) && SignerAgrees(sign, verify)
    ensures StoredTokensVerify(Login(store, creds, passwordMatches, sign).store, verify)
  {
    var r := Login(store, creds, passwordMatches, sign);
    if r.reply.Success? {
      var id := FindOne(store, creds.username, creds.email).value;
      SlotUpdateKeepsVerify(store, r.store, id, verify);
    }
  }

  lemma LogoutKeepsTokensVerified(store: Store, caller: UserId, verify: Token -> Verified)
    requires StoredTokensVerify(store, verify)
    ensures StoredTokensVerify(Logout(store, caller).store, verify)
  {
    if caller < |store| {
      SlotUpdateKeepsVerify(store, Logout(store, caller).store, caller, verify);
    }
  }

  lemma RefreshKeepsTokensVerified(store: Store, cookie: Option<string>, body: Option<string>,
                                   verify: Token -> Verified, sign: UserId -> Option<TokenPair>)
    requires StoredTokensVerify(store, verify) && SignerAgrees(sign, verify)
    ensures StoredTokensVerify(Refresh(store, cookie, body, verify, sign).store, verify)
  {
    var r := Refresh(store, cookie, body, verify, sign);
    if r.reply.Success? {
      var id := verify(Presented(cookie, body).value).subject.value;
      SlotUpdateKeepsVerify(store, r.store, id, verify);
    }
  }

  // ------------------------------------------------------------ register, then login

  /** A freshly registered user is the one a login by its email finds: no earlier
      record has that email, because registration refused duplicates. */
  lemma RegisteredUserFoundByEmail(store: Store, form: RegisterForm, files: Uploads)
    requires Register(store, form, files).reply.Success?
    ensures FindOne(Register(store, form, files).store, None, form.email) == Some(|store|)
  {
    var after := Register(store, form, files).store;
    assert Matches(after[|store|], None, form.email);
    forall j | 0 <= j < |store|
      ensures !Matches(after[j], None, form.email)
    {
      assert after[j] == store[j];
      assert !Matches(store[j], form.username, form.email);
    }
  }

  /** The cover image is optional: whether registration succeeds does not depend
      on the cover upload, and a missing one is stored as "". */
  lemma CoverImageOptional(store: Store, form: RegisterForm, files: Uploads)
    ensures Register(store, form, files).reply.Success?
            <==> Register(store, form, files.(coverUpload := None)).reply.Success?
    ensures Register(store, form, files.(coverUpload := None)).reply.Success?
            ==> Register(store, form, files.(coverUpload := None)).store[|store|].coverImage == ""
  {
  }

  /** The duplicate check compares the raw username while the record keeps it
      lower-cased: after registering a name with an upper-case letter, no record
      carries that raw name. */
  lemma MixedCaseUsernameNotStored(store: Store, form: RegisterForm, files: Uploads, k: nat)
    requires Register(store, form, files).reply.Success?
    requires k < |form.username.value| && IsUpper(form.username.value[k])
    ensures !AnyMatch(Register(store, form, files).store, form.username, None)
  {
    var r := Register(store, form, files);
    ToLowerCaseChangesUpper(form.username.value, k);
    forall j | 0 <= j < |r.store|
      ensures !Matches(r.store[j], form.username, None)
    {
      if j < |store| {
        assert !Matches(store[j], form.username, form.email);
      }
    }
  }

  /** As written, the duplicate check compares the raw name, so registering a
      mixed-case name whose lower-cased form is already stored succeeds and leaves
      two records with the same username. Only the unique index of the user schema,
      which this model does not have, would refuse the second one. */
  lemma MixedCaseDuplicateStored(store: Store, form: RegisterForm, files: Uploads, i: UserId)
    requires Register(store, form, files).reply.Success?
    requires i < |store| && store[i].username == ToLowerCase(form.username.value)
    ensures var after := Register(store, form, files).store;
            |after| == |store| + 1 && i != |store| && after[i].username == after[|store|].username
  {
  }

  /** A concrete instance: with `alice` stored, registering `Alice` succeeds. */
  lemma MixedCaseDuplicateExample()
    ensures var alice := User("Alice A", "a@x", "alice", "h", "av", "", None);
            var form := RegisterForm(Some("Alice B"), Some("b@x"), Some("Alice"), Some("p"));
            var r := Register([alice], form, Uploads(Some("tmp/av"), Some("av2"), None));
            r.reply.Success? && |r.store| == 2 && r.store[0].username == r.store[1].username == "alice"
  {
    var alice := User("Alice A", "a@x", "alice", "h", "av", "", None);
    var form := RegisterForm(Some("Alice B"), Some("b@x"), Some("Alice"), Some("p"));
    assert ToLowerCase("Alice") == "alice";
    assert !Matches(alice, form.username, form.email);
    assert !IsWhitespace(form.fullName.value[0]) && !IsWhitespace(form.email.value[0]);
    assert !IsWhitespace(form.username.value[0]) && !IsWhitespace(form.password.value[0]);
  }

  /** Consequently, logging in with that same name alone is a 404. */
  lemma MixedCaseUsernameNotFound(store: Store, form: RegisterForm, files: Uploads, password: Option<string>,
                                  passwordMatches: (string, Option<string>) -> bool,
                                  sign: UserId -> Option<TokenPair>, k: nat)
    requires Register(store, form, files).reply.Success?
    requires k < |form.username.value| && IsUpper(form.username.value[k])
    ensures var after := Register(store, form, files).store;
            Login(after, Credentials(None, form.username, password), passwordMatches, sign)
            == Step(after, Failure(ApiError(404, MsgNoSuchUser)))
  {
    MixedCaseUsernameNotStored(store, form, files, k);
    assert Truthy(form.username);
  }
}

=== FILE: user_controller.dfy ===
/**
  The decision logic of the user controller: registration, login, logout,
  refresh-token rotation and the token-issuing helper they share. Each handler
  is a pure function from the user collection and the request to a `Step`: the
  collection afterwards and either a success reply or the `ApiError` the
  handler throws. Signing, verifying, password hashing and media upload are
  foreign calls; their outcomes are parameters.
 */
module UserController {
  import opened Js
  import opened UserModel

  /** The error the handlers throw: an HTTP status and a message. */
  datatype ApiError = ApiError(status: nat, message: string)

  /** An access token and a refresh token signed for one user. */
  datatype TokenPair = TokenPair(accessToken: Token, refreshToken: Token)

  /** What a successful handler puts in the JSON body. `Refreshed.sentRefreshToken` is
      `None` when the handler sends an `undefined` refresh token. */
  datatype Payload =
    | Registered(user: UserView)
    | LoggedIn(user: UserView, accessToken: Token, refreshToken: Token)
    | LoggedOut
    | Refreshed(accessToken: Token, sentRefreshToken: Option<Token>)

  datatype Reply = Success(status: nat, payload: Payload) | Failure(error: ApiError)

  /** The collection after a request, and the reply to it. */
  datatype Step = Step(store: Store, reply: Reply)

  /** Outcome of the token-issuing helper. */
  datatype Issue = Issued(store: Store, tokens: TokenPair) | IssueFailed(error: ApiError)

  /** Outcome of verifying a refresh token against the refresh secret: either the
      verifier's rejection reason, or the decoded payload's `_id` (possibly absent). */
  datatype Verified = Rejected(reason: string) | Decoded(subject: Option<UserId>)

  const MsgTokensFailed := " something went wrong while generating refresh and access token"
  const MsgFieldsRequired := "all fields are required"
  const MsgUserExists := "user with email or username already exists"
  const MsgAvatarLocal := "avatar file is required : locally"
  const MsgAvatarCloud := "avatar file is required: cloud"
  /** Placeholder for the uncaught exception raised when a record is created with an absent field. */
  const MsgCreateFailed := "user record could not be created"
  const MsgIdentifierRequired := " username or email is required"
  const MsgNoSuchUser := " user doesn't exist "
  const MsgWrongPassword := " Password Incorrect "
  const MsgUnauthorized := "unauthorized request"
  const MsgInvalidRefresh := "invalid refresh token"
  const MsgRefreshUsed := "refresh token is expired or used"

  /** The token-issuing helper. `sign(id)` is the pair the signer produces for user
      `id` in this request, or `None` when signing or saving throws; any failure,
      including an unknown user, becomes a 500 and leaves the collection as it was.
      On success the new refresh token overwrites whatever the slot held. */
  function GenerateTokens(store: Store, id: UserId, sign: UserId -> Option<TokenPair>): (r: Issue)
    ensures r.Issued? <==> id < |store| && sign(id).Some?
    ensures r.IssueFailed? ==> r.error == ApiError(500, MsgTokensFailed)
    ensures r.Issued? ==> r.tokens == sign(id).value
    ensures r.Issued? ==> OnlyTokenChanged(store, r.store, id)
    ensures r.Issued? ==> HoldsToken(r.store, id, sign(id).value.refreshToken)
  {
    var minted := sign(id);
    if id < |store| && minted.Some? then
      Issued(SetRefreshToken(store, id, Some(minted.value.refreshToken)), minted.value)
    else
      IssueFailed(ApiError(500, MsgTokensFailed))
  }

  // ---------------------------------------------------------------- register

  /** The text fields of a registration request; each may be `undefined`. */
  datatype RegisterForm = RegisterForm(
    fullName: Option<string>,
    email: Option<string>,
    username: Option<string>,
    password: Option<string>)

  /** The files of a registration request: the local avatar path, what uploading
      it returns, and what uploading the (possibly absent) cover-image path returns. */
  datatype Uploads = Uploads(
    avatarPath: Option<string>,
    avatarUpload: Option<Url>,
    coverUpload: Option<Url>)

  /** Some supplied field is present but blank after trimming. */
  predicate AnyFieldBlank(form: RegisterForm) {
    || BlankWhenTrimmed(form.fullName)
    || BlankWhenTrimmed(form.email)
    || BlankWhenTrimmed(form.username)
    || BlankWhenTrimmed(form.password)
  }

  predicate AllFieldsPresent(form: RegisterForm) {
    form.fullName.Some? && form.email.Some? && form.username.Some? && form.password.Some?
  }

  /** The avatar was attached and its upload returned a result. */
  predicate AvatarUploaded(files: Uploads) {
    Truthy(files.avatarPath) && files.avatarUpload.Some?
  }

  /** `registerUser`. Checks run in the source's order: blank fields (400), an
      existing user with the same raw username or email (409), the avatar (400),
      then the record is created with the username lower-cased and the cover image
      defaulting to "". */
  function Register(store: Store, form: RegisterForm, files: Uploads): (r: Step)
    ensures r.reply.Failure? ==> r.store == store
    ensures AnyFieldBlank(form) ==> r.reply == Failure(ApiError(400, MsgFieldsRequired))
    ensures !AnyFieldBlank(form) && AnyMatch(store, form.username, form.email)
            ==> r.reply == Failure(ApiError(409, MsgUserExists))
    ensures !AnyFieldBlank(form) && !AnyMatch(store, form.username, form.email) && !Truthy(files.avatarPath)
            ==> r.reply == Failure(ApiError(400, MsgAvatarLocal))
    ensures !AnyFieldBlank(form) && !AnyMatch(store, form.username, form.email)
            && Truthy(files.avatarPath) && files.avatarUpload.None?
            ==> r.reply == Failure(ApiError(400, MsgAvatarCloud))
    ensures !AnyFieldBlank(form) && !AnyMatch(store, form.username, form.email)
            && AvatarUploaded(files) && !AllFieldsPresent(form)
            ==> r.reply == Failure(ApiError(500, MsgCreateFailed))
    ensures r.reply.Success? <==>
            && !AnyFieldBlank(form)
            && !AnyMatch(store, form.username, form.email)
            && AvatarUploaded(files)
            && AllFieldsPresent(form)
    ensures r.reply.Success? ==>
            && r.store == store + [User(
                 form.fullName.value, form.email.value, ToLowerCase(form.username.value),
                 form.password.value, files.avatarUpload.value, files.coverUpload.ValueOr(""), None)]
            && r.reply == Success(201, Registered(Sanitize(r.store, |store|)))
  {
    if AnyFieldBlank(form) then
      Step(store, Failure(ApiError(400, MsgFieldsRequired)))
    else if FindOne(store, form.username, form.email).Some? then
      Step(store, Failure(ApiError(409, MsgUserExists)))
    else if !Truthy(files.avatarPath) then
      Step(store, Failure(ApiError(400, MsgAvatarLocal)))
    else if files.avatarUpload.None? then
      Step(store, Failure(ApiError(400, MsgAvatarCloud)))
    else if !AllFieldsPresent(form) then
      Step(store, Failure(ApiError(500, MsgCreateFailed)))
    else
      var user := User(
        form.fullName.value, form.email.value, ToLowerCase(form.username.value),
        form.password.value, files.avatarUpload.value, files.coverUpload.ValueOr(""), None);
      var store' := store + [user];
      Step(store', Success(201, Registered(Sanitize(store', |store|))))
  }

  // ---------------------------------------------------------------- login

  /** The body of a login request. */
  datatype Credentials = Credentials(
    email: Option<string>,
    username: Option<string>,
    password: Option<string>)

  /** `loginUser`. `passwordMatches(stored, supplied)` is the password comparison;
      `sign` is the signer. Failures, in order: no identifier (400),
      no matching user (404), wrong password (401), issuing failed (500); none of
      them touches the collection. The first user matching the identifiers logs in. */
  function Login(store: Store, creds: Credentials, passwordMatches: (string, Option<string>) -> bool,
                 sign: UserId -> Option<TokenPair>): (r: Step)
    ensures r.reply.Failure? ==> r.store == store
    ensures !Truthy(creds.username) && !Truthy(creds.email)
            ==> r.reply == Failure(ApiError(400, MsgIdentifierRequired))
    ensures (Truthy(creds.username) || Truthy(creds.email)) && !AnyMatch(store, creds.username, creds.email)
            ==> r.reply == Failure(ApiError(404, MsgNoSuchUser))
    ensures (Truthy(creds.username) || Truthy(creds.email)) && AnyMatch(store, creds.username, creds.email)
            ==> var id := FindOne(store, creds.username, creds.email).value;
                && (!passwordMatches(store[id].password, creds.password)
                    ==> r.reply == Failure(ApiError(401, MsgWrongPassword)))
                && (passwordMatches(store[id].password, creds.password) && sign(id).None?
                    ==> r.reply == Failure(ApiError(500, MsgTokensFailed)))
    ensures r.reply.Success? <==>
            && (Truthy(creds.username) || Truthy(creds.email))
            && AnyMatch(store, creds.username, creds.email)
            && var id := FindOne(store, creds.username, creds.email).value;
            && passwordMatches(store[id].password, creds.password)
            && sign(id).Some?
    ensures r.reply.Success? ==>
            var id := FindOne(store, creds.username, creds.email).value;
            && OnlyTokenChanged(store, r.store, id)
            && HoldsToken(r.store, id, sign(id).value.refreshToken)
            && r.reply == Success(200, LoggedIn(Sanitize(r.store, id), sign(id).value.accessToken,
                                                sign(id).value.refreshToken))
  {
    if !Truthy(creds.username) && !Truthy(creds.email) then
      Step(store, Failure(ApiError(400, MsgIdentifierRequired)))
    else
      match FindOne(store, creds.username, creds.email)
      case None => Step(store, Failure(ApiError(404, MsgNoSuchUser)))
      case Some(id) =>
        if !passwordMatches(store[id].password, creds.password) then
          Step(store, Failure(ApiError(401, MsgWrongPassword)))
        else
          match GenerateTokens(store, id, sign)
          case IssueFailed(e) => Step(store, Failure(e))
          case Issued(store', tokens) =>
            Step(store', Success(200, LoggedIn(Sanitize(store', id), tokens.accessToken, tokens.refreshToken)))
  }

  // ---------------------------------------------------------------- logout

  /** `logoutUser` for the user the authentication middleware identified. The
      caller's refresh-token slot is cleared and nothing else changes; an unknown
      caller changes nothing. The reply is always a success. */
  function Logout(store: Store, caller: UserId): (r: Step)
    ensures r.reply == Success(200, LoggedOut)
    ensures caller < |store| ==> OnlyTokenChanged(store, r.store, caller) && r.store[caller].refreshToken.None?
    ensures caller >= |store| ==> r.store == store
  {
    if caller < |store| then Step(SetRefreshToken(store, caller, None), Success(200, LoggedOut))
    else Step(store, Success(200, LoggedOut))
  }

  // ---------------------------------------------------------------- refresh

  /** The `catch` of the refresh handler: every error is re-thrown as a 401 that
      keeps the original message, or a default one when that message is empty. */
  function Rethrown(message: string): (e: ApiError)
    ensures e.status == 401
    ensures message != "" ==> e.message == message
    ensures message == "" ==> e.message == MsgInvalidRefresh
  {
    ApiError(401, if message != "" then message else MsgInvalidRefresh)
  }

  /** The refresh token a request presents, `cookie || body`: the cookie if truthy,
      else the body field. */
  function Presented(cookie: Option<string>, body: Option<string>): (r: Option<Token>)
    ensures Truthy(cookie) ==> r == cookie
    ensures !Truthy(cookie) ==> r == body
    ensures Truthy(r) <==> Truthy(cookie) || Truthy(body)
  {
    if Truthy(cookie) then cookie else body
  }

  /** The request presents token `t`, `t` decodes to user `id`, and `id` currently
      holds exactly `t`: the conditions under which a refresh may rotate. */
  predicate Admissible(store: Store, cookie: Option<string>, body: Option<string>,
                       verify: Token -> Verified, t: Token, id: UserId) {
    && Presented(cookie, body) == Some(t)
    && t != ""
    && verify(t) == Decoded(Some(id))
    && HoldsToken(store, id, t)
  }

  /** `refreshAccesToken`. Every failure is a 401 that leaves the collection as it
      was. A refresh rotates only when the presented token verifies, names an
      existing user, and equals that user's stored token; the stored slot then holds
      the newly signed token, but the reply's refresh token is `undefined` because
      the handler reads a property the token helper does not return. */
  function Refresh(store: Store, cookie: Option<string>, body: Option<string>,
                   verify: Token -> Verified, sign: UserId -> Option<TokenPair>): (r: Step)
    ensures r.reply.Failure? ==> r.store == store && r.reply.error.status == 401
    ensures !Truthy(cookie) && !Truthy(body) ==> r.reply == Failure(ApiError(401, MsgUnauthorized))
    ensures Truthy(Presented(cookie, body)) ==>
            var t := Presented(cookie, body).value;
            match verify(t)
            case Rejected(reason) => r.reply == Failure(Rethrown(reason))
            case Decoded(subject) =>
              && (subject.None? || subject.value >= |store|
                  ==> r.reply == Failure(ApiError(401, MsgInvalidRefresh)))
              && (subject.Some? && subject.value < |store| && !HoldsToken(store, subject.value, t)
                  ==> r.reply == Failure(ApiError(401, MsgRefreshUsed)))
              && (subject.Some? && HoldsToken(store, subject.value, t) && sign(subject.value).None?
                  ==> r.reply == Failure(ApiError(401, MsgTokensFailed)))
    ensures r.reply.Success? <==>
            exists t: Token, id: UserId :: Admissible(store, cookie, body, verify, t, id) && sign(id).Some?
    ensures r.reply.Success? ==>
            var t := Presented(cookie, body).value;
            var id := verify(t).subject.value;
            && Admissible(store, cookie, body, verify, t, id)
            && OnlyTokenChanged(store, r.store, id)
            && sign(id).Some?
            && HoldsToken(r.store, id, sign(id).value.refreshToken)
            && r.reply == Success(200, Refreshed(sign(id).value.accessToken, None))
  {
    var incoming := Presented(cookie, body);
    if !Truthy(incoming) then
      Step(store, Failure(ApiError(401, MsgUnauthorized)))
    else
      var t := incoming.value;
      match verify(t)
      case Rejected(reason) => Step(store, Failure(Rethrown(reason)))
      case Decoded(subject) =>
        if subject.None? || subject.value >= |store| then
          Step(store, Failure(Rethrown(MsgInvalidRefresh)))
        else if store[subject.value].refreshToken != Some(t) then
          Step(store, Failure(Rethrown(MsgRefreshUsed)))
        else
          match GenerateTokens(store, subject.value, sign)
          case IssueFailed(e) => Step(store, Failure(Rethrown(e.message)))
          case Issued(store', tokens) =>
            assert Admissible(store, cookie, body, verify, t, subject.value);
            Step(store', Success(200, Refreshed(tokens.accessToken, None)))
  }
}

=== FILE: user_model.dfy ===
/**
  The user collection as the controller sees it. The collection is a sequence,
  and a lookup answers with the first matching record in sequence order: the
  model fixes one order where the database promises none. A user's id is its
  position, which is stable because nothing in the controller deletes a user.
  Each record has exactly one refresh-token slot, so at most one refresh token
  per user is live at a time.
 */
module UserModel {
  import opened Js

  type UserId = nat
  type Token = string
  type Url = string

  /** A stored user document. `password` is the stored (hashed) credential. */
  datatype User = User(
    fullName: string,
    email: string,
    username: string,
    password: string,
    avatar: Url,
    coverImage: Url,
    refreshToken: Option<Token>)

  /** A user document as returned to clients: selected with `-password -refreshToken`. */
  datatype UserView = UserView(
    id: UserId,
    fullName: string,
    email: string,
    username: string,
    avatar: Url,
    coverImage: Url)

  type Store = seq<User>

  /** The credential-free projection of the record with the given id. */
  function Sanitize(store: Store, id: UserId): UserView
    requires id < |store|
  {
    var u := store[id];
    UserView(id, u.fullName, u.email, u.username, u.avatar, u.coverImage)
  }

  /** The view does not depend on the password or the refresh token of the record. */
  lemma SanitizeIgnoresCredentials(store: Store, id: UserId, password: string, token: Option<Token>)
    requires id < |store|
    ensures Sanitize(store[id := store[id].(password := password, refreshToken := token)], id)
            == Sanitize(store, id)
  {
  }

  /** The `$or: [{ username }, { email }]` filter; an `undefined` alternative matches no record. */
  predicate Matches(u: User, username: Option<string>, email: Option<string>) {
    username == Some(u.username) || email == Some(u.email)
  }

  /** Some record matches the filter. */
  predicate AnyMatch(store: Store, username: Option<string>, email: Option<string>) {
    exists j :: 0 <= j < |store| && Matches(store[j], username, email)
  }

  /** `findOne` on the filter, scanning from position `from`: the first match, if any. */
  function FindFrom(store: Store, username: Option<string>, email: Option<string>, from: nat): (r: Option<UserId>)
    requires from <= |store|
    ensures r.Some? ==> from <= r.value < |store| && Matches(store[r.value], username, email)
    ensures r.Some? ==> forall j :: from <= j < r.value ==> !Matches(store[j], username, email)
    ensures r.None? ==> forall j :: from <= j < |store| ==> !Matches(store[j], username, email)
    decreases |store| - from
  {
    if from == |store| then None
    else if Matches(store[from], username, email) then Some(from)
    else FindFrom(store, username, email, from + 1)
  }

  /** `findOne` on the whole collection: the first matching record, or nothing when none matches. */
  function FindOne(store: Store, username: Option<string>, email: Option<string>): (r: Option<UserId>)
    ensures r.Some? ==> r.value < |store| && Matches(store[r.value], username, email)
    ensures r.Some? ==> forall j :: 0 <= j < r.value ==> !Matches(store[j], username, email)
    ensures r.None? <==> !AnyMatch(store, username, email)
  {
    FindFrom(store, username, email, 0)
  }

  /** The user `id` currently holds `t` in its refresh-token slot. */
  predicate HoldsToken(store: Store, id: UserId, t: Token) {
    id < |store| && store[id].refreshToken == Some(t)
  }

  /** `after` differs from `before` at most in the refresh-token slot of user `id`. */
  predicate OnlyTokenChanged(before: Store, after: Store, id: UserId) {
    && |after| == |before|
    && id < |before|
    && after[id] == before[id].(refreshToken := after[id].refreshToken)
    && forall j :: 0 <= j < |before| && j != id ==> after[j] == before[j]
  }

  /** Overwrites the refresh-token slot of user `id` and nothing else. */
  function SetRefreshToken(store: Store, id: UserId, t: Option<Token>): (r: Store)
    requires id < |store|
    ensures OnlyTokenChanged(store, r, id)
    ensures r[id].refreshToken == t
  {
    store[id := store[id].(refreshToken := t)]
  }
}
